=== FILE: README.md ===
# WeTTY connection gate and socket path, in Dafny

WeTTY serves a terminal in the browser over socket.io. This project models two
pieces of its pure decision logic.

- **The server's connection handler** (`io.on('connection', ...)` in
  `decorateServerWithSsh`). Every accepted socket increments the
  `wetty_connections` gauge. The socket then passes a signed-URL gate, and
  after that the handler generates the command and spawns it. A rejection
  or a throwing getCommand/spawn decrements the gauge once. If `url.parse`
  throws on the referer, the exception escapes the handler: nothing
  decrements and nothing disconnects.
  `Admission.Handle` models one run of the handler. It takes an abstract
  connection (secret, referer, how getCommand/spawn end) and gives back a
  verdict (`Rejected`, `SpawnFailed`, `Spawned`, `Escaped`) plus the
  ordered trace of effects: gauge inc/dec, verify call, disconnect, getCommand, spawn.
  `Admission.GateAccepts` is an independent statement of the fail-closed
  rule. The referer must parse. When either a secret or a `signed`
  parameter is present, secret, token and referer must all be present and
  the signature must verify.
  `Gauge` treats the traces of concurrent connections as interleavings on
  one shared gauge.
- **The client's socket.io path** (`trim` and the `socketBase` / `path`
  derivation). `SocketPath.Trim` removes the maximal run of trailing `/`.
  `SocketPath.StripSsh` removes a trailing `ssh/<segment>` whose segment is
  non-empty and has no `/`. `SocketPath.SocketIoPath` is
  `trim(base) + "/socket.io"`. The page pathname is a parameter instead of
  being read from `window.location`.

Files: `gauge.dfy` (module `Gauge`), `admission.dfy` (module `Admission`),
`socket_path.dfy` (module `SocketPath`).

Modelling choices:
- "Present" follows JavaScript truthiness. A secret or referer that is
  `undefined` or the empty string counts as absent.
- The two foreign calls are the function-valued fields of `Admission.Oracles`:
  - `query(referer)`: `url.parse(referer, true)` either throws (`Malformed`)
    or yields a query whose `signed` parameter is truthy or not
    (`Parsed(signed)`). Node's legacy parser throws, for example, when the
    auth part cannot be decoded (`http://%zz@h/`).
  - `verifies(secret, referer)`: `new Signature({secret}).verify(referer)`
    returns without throwing.
- A falsy referer is parsed as `''`. Its query is empty, so the `signed`
  oracle is consulted only for a non-empty referer (`Admission.ParseThrows`,
  `Admission.SignedOn`).
- getCommand and spawn are one abstract input, `Launch`, with three values:
  `CommandThrows`, `SpawnThrows` and `Launched`.

## Model

| member | source | states |
|---|---|---|
| Admission.Gate | src/server.ts:96-122 | url.parse fails exactly when a non-empty referer is malformed. The gate is open exactly when the referer parses and neither secret nor `signed` parameter is present. The verifying branches are reached exactly when secret, `signed` parameter and referer are all present. The gate lets a connection through exactly when the fail-closed rule `GateAccepts` holds. |
| Admission.Handle | src/server.ts:82-132 | The first effect is the one and only gauge increment. There is at most one decrement. There is none exactly when the process was spawned or url.parse threw. The verdict is `Escaped` exactly when url.parse throws. It is `Rejected` exactly when the referer parses and the fail-closed rule refuses the connection. |
| Admission.HandlePaths | src/server.ts:96-131 | The socket is disconnected exactly on rejection. getCommand is reached exactly when the gate passed. The verifier runs exactly when secret, `signed` parameter and referer are all present. When url.parse throws, the increment is the only effect. |
| Admission.AcceptedTrace | src/server.ts:88-131 | For a connection the gate lets through, the exact trace is the increment, then one verify call when a secret is set, then the try/catch trace. |
| Admission.VerifyBeforeLaunch | src/server.ts:96-127 | In any run, no getCommand or spawn comes before the signature check. |
| Admission.HandleFollowsLaunch | src/server.ts:124-131 | Past the gate, getCommand and spawn decide the outcome. The verdict is `Spawned` exactly when the gate passes and both succeed, and `SpawnFailed` exactly when the gate passes and one throws. Spawn is reached exactly when the gate passes and getCommand does not throw. |
| Admission.CommandTail | src/server.ts:124-131 | The try/catch around getCommand and spawn. It never increments. It decrements once exactly when getCommand or spawn throws. It always calls getCommand, never disconnects, and reaches spawn unless getCommand threw. |
| Admission.CommandTailOrder | src/server.ts:124-131 | Inside the try block getCommand runs first. getCommand and spawn each run at most once. The catch-block decrement, when present, is the last effect. |
| Admission.RunCommand | src/server.ts:124-131 | Running the command after the gate keeps the gate's first effect and adds no increment. It adds one decrement exactly on a throw and adds no disconnect. Spawn is reached unless getCommand throws. The verdict is `Spawned` iff both calls succeed, else `SpawnFailed`. |
| Admission.RunCommandKeepsGate | src/server.ts:96-131 | Every effect of the gate, which runs before the try block, stays in front and in order when the command is run. What follows is exactly the try/catch trace `CommandTail`. |
| Admission.Reject | src/server.ts:97-121 | A gate rejection keeps the first earlier effect. It adds a disconnect and exactly one decrement, and no increment, getCommand or spawn. |
| Admission.RejectKeepsGate | src/server.ts:97-121 | A rejection only appends its disconnect and decrement. The gate's earlier effects stay in front and in order. |
| Admission.Delta | src/server.ts:88-131 | The net gauge change of one connection is 0 or 1. It is 1 exactly when the process was spawned or url.parse threw. |
| Admission.GateIsFailClosed | src/server.ts:96-122 | The handler rejects a connection if and only if the referer parses and the fail-closed rule `GateAccepts` refuses it. The rule: neither secret nor `signed` parameter, or all of secret, token and referer with a verifying signature. |
| Admission.OpenModeSkipsVerification | src/server.ts:96-97 | With no secret and no `signed` parameter, the signature is never verified. Command generation is reached exactly when the referer parses. |
| Admission.HalfPairRejected | src/server.ts:96-107 | Take a connection where exactly one of secret and `signed` parameter is present, or where the gate is active but the referer is missing. Its trace is exactly inc, disconnect, dec, or just inc when url.parse threw first. |
| Admission.BadSignatureRejected | src/server.ts:109-121 | If secret, token and referer are all present but verification throws, the trace is exactly inc, verify, disconnect, dec. |
| Admission.MissingRefererOpenMode | src/server.ts:90-97 | A missing referer carries no `signed` parameter. Without a secret, such a connection is not rejected and reaches command generation. |
| Admission.RefererTestRedundant | src/server.ts:96-99 | Once secret and `signed` parameter are both present, the referer is present too. So the `!referer` test never rejects on its own. |
| Admission.LaunchFailureDecrementsOnce | src/server.ts:124-131 | After a passed gate, a throwing getCommand or spawn gives `SpawnFailed` with exactly one decrement, no disconnect and a net gauge change of 0. |
| Admission.HandlerStaysNonNegative | src/server.ts:88-130 | One handler run, started from an empty gauge, never drives it negative. It ends at the connection's `Delta`. |
| Admission.ConcurrentConnectionsGauge | src/server.ts:82-132 | Take any interleaving of the handler runs of any list of connections on the shared gauge, each with its own oracles. The gauge never reads negative. It ends at the number of connections that spawned a process or whose referer made url.parse throw. |
| Gauge.CountConcat | src/server.ts:28-31 | Counting effects distributes over concatenation of traces. |
| Gauge.ApplyIsNet | src/server.ts:28-31 | Applying a trace to the gauge moves it by increments minus decrements. |
| Gauge.InterleavedStaysNonNegative | src/server.ts:88-130 | Take two runs that each keep their own share non-negative. Every interleaving of them keeps the shared gauge non-negative and ends at the sum of the two readings. |
| Gauge.SharedGaugeNonNegative | src/server.ts:88-130 | The same for any number of runs. The final reading is the sum of their nets. |
| SocketPath.Trim | src/client/wetty/socket.ts:3 | `trim(s)` is a prefix of `s`, the removed suffix is all `/`, and the result never ends with `/`. |
| SocketPath.TrimUnique | src/client/wetty/socket.ts:3 | Any prefix `t` of `s` that does not end with `/`, and whose remainder in `s` is all `/`, equals `trim(s)`. So the regex removes the maximal slash run. |
| SocketPath.TrimIdempotent | src/client/wetty/socket.ts:3 | `trim(trim(s)) == trim(s)`. |
| SocketPath.TrimKeepsUnslashed | src/client/wetty/socket.ts:3 | A string that does not end with `/` is unchanged by `trim`. |
| SocketPath.TrimAllSlashes | src/client/wetty/socket.ts:3 | A string of only `/` (or the empty string) trims to `""`. |
| SocketPath.SegmentStart | src/client/wetty/socket.ts:5 | The index just past the last `/`. Nothing from there on is a `/`, and the character before it is one. |
| SocketPath.SshTailAtLastSlash | src/client/wetty/socket.ts:5 | A match of the ssh-segment pattern starts exactly where its `ssh/` ends on the last `/` of the string. |
| SocketPath.SshTailUnique | src/client/wetty/socket.ts:5 | The ssh-segment pattern matches at no more than one position. |
| SocketPath.StripSsh | src/client/wetty/socket.ts:5 | When the pattern matches at `i`, the result is the prefix before `i`. When it matches nowhere, the string is returned unchanged. |
| SocketPath.StripSshDecomposition | src/client/wetty/socket.ts:5 | `p + "ssh/" + seg` with `seg` non-empty and slash-free strips to `p`, whatever `p` ends with. |
| SocketPath.SocketBase | src/client/wetty/socket.ts:5 | The socket base is a prefix of the pathname. |
| SocketPath.SocketBaseStripsIff | src/client/wetty/socket.ts:5 | The base differs from the trimmed pathname if and only if the trimmed pathname has the form `p + "ssh/" + seg` with `seg` non-empty and slash-free. |
| SocketPath.SocketBaseOfSshPath | src/client/wetty/socket.ts:5-8 | If the trimmed pathname is `p + "ssh/" + seg`, the base is `p` and the socket path is `trim(p) + "/socket.io"`. |
| SocketPath.SocketBaseOfOtherPath | src/client/wetty/socket.ts:5-8 | Otherwise the base is the trimmed pathname and the socket path is that plus `/socket.io`. |
| SocketPath.SocketIoPath | src/client/wetty/socket.ts:5-8 | The socket path ends with `/socket.io`. The part before it is a prefix of the pathname that does not end with `/`, so the joint never reads `//socket.io`. |
| SocketPath.ExampleWettyUser | src/client/wetty/socket.ts:5-8 | Pathname `/wetty/ssh/bob` gives `/wetty/socket.io`. |
| SocketPath.ExampleRoot | src/client/wetty/socket.ts:5-8 | Pathname `/` gives `/socket.io`. |
| SocketPath.ExampleGluedSsh | src/client/wetty/socket.ts:5 | `ssh` need not follow a slash: `/xssh/u` has base `/x`. |
| SocketPath.ExampleEmptySegment | src/client/wetty/socket.ts:3-8 | `/a/ssh/` trims to `/a/ssh`, which has no segment after `ssh/`. It keeps its `ssh` and gives `/a/ssh/socket.io`. |

## Left out

- Signature cryptography (the `signed` library) and query parsing (`url.parse`) are foreign calls. They stay uninterpreted, as the `Oracles` fields.
- `getCommand` and `spawn` (src/server/command.js, src/server/spawn.js) are not part of this model. Their only role here is to succeed or throw (`Launch`).
- The code shown never decrements a connection whose spawn resolved. `wettyConnections` is private to src/server.ts (lines 28-31), and spawn receives only the socket and the arguments (line 127). A spawned connection therefore nets +1 (`Delta`, `ConcurrentConnectionsGauge`). If spawn's promise rejects later, for instance when the session ends, that rejection lands in the catch at lines 128-130 and is modelled as `SpawnThrows`. Whether spawn ever does this cannot be seen, because src/server/spawn.js is not part of this model.
- Express/socket.io setup, `collectDefaultMetrics`, gc-stats and prom-client internals (src/server.ts:74-77) are I/O and observability. The gauge is a plain integer.
- The warning about password-less key authentication (src/server.ts:66-72) only writes to the log. Logging is not modelled anywhere.
- `io(window.location.origin, ...)` (src/client/wetty/socket.ts:6) opens a network connection. Only its `path` option is modelled.
- src/client/wetty/term.ts is not modelled: it is xterm.js UI wiring (theme, addons, DOM, resize).
- src/server/socketServer/html.ts is not modelled: it is static HTML templating.
- SocketPath.SocketIoPath: its contract rules out `//socket.io` only at the joint before the final `/socket.io`. A pathname that already contains `//socket.io` earlier keeps it, so "never contains" does not hold for arbitrary pathnames.
- Admission.ConcurrentConnectionsGauge: each connection has its own oracles, so a verdict that depends on when verify runs (a token expiry) is covered. The interleaving still treats each handler's trace as fixed in advance.
- Admission.ConcurrentConnectionsGauge: on an `Escaped` connection, the async handler's promise rejects and nothing in src/server.ts catches it (lines 82 and 96). What the runtime then does is outside the model, and Node 15 and later end the process by default. The final gauge reading for escaped connections therefore assumes a server that survives the rejection.
- Admission.Handle: the asynchronous `await`s are not steps of the function. Concurrency is modelled by interleaving whole effect traces on the shared gauge (`Gauge.Interleaves`).

=== FILE: admission.dfy ===
/**
  The per-connection handler of the WeTTY server: every accepted socket bumps
  the `wetty_connections` gauge, passes a signed-URL gate, and then has its
  command generated and spawned. The handler is modelled as a pure function
  from an abstract connection to its verdict and the ordered trace of effects
  it performs.

  The two foreign calls stay abstract: `query` stands for url.parse of the
  referer (it either throws or yields a query whose `signed` parameter is
  truthy or not) and `verifies` for "Signature({secret}).verify(referer)
  returns without throwing" (the `signed` library). Command generation and
  spawning are an abstract `Launch` input.
 */
module Admission {
  import opened Gauge

  datatype Option<T> = None | Some(value: T)

  /** What getCommand/spawn do for this connection. */
  datatype Launch =
    | CommandThrows   // getCommand rejects
    | SpawnThrows     // getCommand resolves, spawn rejects
    | Launched        // both resolve

  /** Everything the handler looks at for one socket. */
  datatype Connection = Connection(
    secret: Option<string>,    // the server's signingSecret
    referer: Option<string>,   // the request's Referer header
    launch: Launch)

  /** What `url.parse(referer, true)` gives for a referer. */
  datatype Query =
    | Malformed              // url.parse throws (for one, an undecodable auth part)
    | Parsed(signed: bool)   // the query's `signed` parameter is truthy

  /** The foreign calls the gate makes. */
  datatype Oracles = Oracles(
    query: string -> Query,
    verifies: (string, string) -> bool)

  /**
    `Escaped`: an exception left the async handler, so the handler's own
    promise rejects and none of its later steps run.
   */
  datatype Verdict = Rejected | SpawnFailed | Spawned | Escaped

  datatype Outcome = Outcome(verdict: Verdict, effects: Trace)

  /** JavaScript truthiness of an optional string: defined and non-empty. */
  predicate Truthy(s: Option<string>) {
    s.Some? && s.value != ""
  }

  predicate SecretOn(c: Connection) {
    Truthy(c.secret)
  }

  predicate RefererOn(c: Connection) {
    Truthy(c.referer)
  }

  /**
    A falsy referer is parsed as the empty string, which always parses to an
    empty query, so the oracle is consulted only for a non-empty referer.
   */
  predicate ParseThrows(c: Connection, o: Oracles) {
    RefererOn(c) && o.query(c.referer.value).Malformed?
  }

  /** Whether the parsed referer's query carries a truthy `signed` parameter. */
  predicate SignedOn(c: Connection, o: Oracles) {
    RefererOn(c) && o.query(c.referer.value) == Parsed(true)
  }

  /**
    The fail-closed admission rule, stated independently of the handler: the
    referer parses, and either nothing asks for signing, or secret, token and
    referer are all present and the signature checks out.
   */
  predicate GateAccepts(c: Connection, o: Oracles) {
    && !ParseThrows(c, o)
    && (|| (!SecretOn(c) && !SignedOn(c, o))
        || (SecretOn(c) && SignedOn(c, o) && RefererOn(c)
            && o.verifies(c.secret.value, c.referer.value)))
  }

  /**
    The effects of the try-block around getCommand and spawn: a throw from
    either ends in the catch-block's single decrement.
   */
  function CommandTail(launch: Launch): (t: Trace)
    ensures Count(t, GaugeInc) == 0
    ensures Count(t, GaugeDec) == (if launch == Launched then 0 else 1)
    ensures GetCommand in t && Disconnect !in t && VerifyCall !in t
    ensures Spawn in t <==> launch != CommandThrows
  {
    match launch
    case CommandThrows => [GetCommand, GaugeDec]
    case SpawnThrows => [GetCommand, Spawn, GaugeDec]
    case Launched => [GetCommand, Spawn]
  }

  /**
    Inside the try-block getCommand comes first, no call is made twice, and
    the catch-block's decrement is the last thing that happens.
   */
  lemma CommandTailOrder(launch: Launch)
    ensures var t := CommandTail(launch);
      && t[0] == GetCommand
      && (forall i, j :: 0 <= i < j < |t| ==> t[i] != t[j])
      && (GaugeDec in t ==> t[|t| - 1] == GaugeDec)
  {
  }

  /** The try-block run after the gate let `pre` through. */
  function RunCommand(launch: Launch, pre: Trace): (r: Outcome)
    ensures |r.effects| > |pre| && (pre != [] ==> r.effects[0] == pre[0])
    ensures Count(r.effects, GaugeInc) == Count(pre, GaugeInc)
    ensures Count(r.effects, GaugeDec) == Count(pre, GaugeDec) + (if launch == Launched then 0 else 1)
    ensures r.verdict == (if launch == Launched then Spawned else SpawnFailed)
    ensures Disconnect in r.effects <==> Disconnect in pre
    ensures VerifyCall in r.effects <==> VerifyCall in pre
    ensures GetCommand in r.effects
    ensures Spawn in r.effects <==> Spawn in pre || launch != CommandThrows
  {
    var tail := CommandTail(launch);
    CountConcat(pre, tail, GaugeInc);
    CountConcat(pre, tail, GaugeDec);
    Outcome(if launch == Launched then Spawned else SpawnFailed, pre + tail)
  }

  /**
    The whole gate runs before the try-block: its effects stay in front, and
    the try-block's effects follow them unchanged.
   */
  lemma RunCommandKeepsGate(launch: Launch, pre: Trace)
    ensures RunCommand(launch, pre).effects[..|pre|] == pre
    ensures RunCommand(launch, pre).effects[|pre|..] == CommandTail(launch)
  {
  }

  /** The rejection path of the gate: disconnect the socket, then take the gauge back. */
  function Reject(pre: Trace): (r: Outcome)
    ensures r.verdict == Rejected
    ensures |r.effects| == |pre| + 2 && (pre != [] ==> r.effects[0] == pre[0])
    ensures Count(r.effects, GaugeInc) == Count(pre, GaugeInc)
    ensures Count(r.effects, GaugeDec) == Count(pre, GaugeDec) + 1
    ensures Disconnect in r.effects
    ensures VerifyCall in r.effects <==> VerifyCall in pre
    ensures GetCommand in r.effects <==> GetCommand in pre
    ensures Spawn in r.effects <==> Spawn in pre
  {
    var tail := [Disconnect, GaugeDec];
    CountConcat(pre, tail, GaugeInc);
    CountConcat(pre, tail, GaugeDec);
    Outcome(Rejected, pre + tail)
  }

  /** A rejection only appends: the gate's earlier effects stay in front. */
  lemma RejectKeepsGate(pre: Trace)
    ensures Reject(pre).effects[..|pre|] == pre
  {
  }

  /** How the signed-URL gate disposes of a connection. */
  datatype GateStep =
    | ParseFailed    // url.parse throws before the gate is evaluated
    | Open           // neither secret nor `signed` parameter: no verification
    | Verified       // all present and the signature verifies
    | MissingHalf    // gate active, but secret, `signed` or referer is missing
    | BadSignature   // all present, but verify throws

  /** The parse of the referer and the `if` of the gate. */
  function Gate(c: Connection, o: Oracles): (g: GateStep)
    ensures g == ParseFailed <==> ParseThrows(c, o)
    ensures g == Open <==> !ParseThrows(c, o) && !SecretOn(c) && !SignedOn(c, o)
    ensures g in {Verified, BadSignature} <==> SecretOn(c) && SignedOn(c, o) && RefererOn(c)
    ensures g in {Open, Verified} <==> GateAccepts(c, o)
  {
    if ParseThrows(c, o) then ParseFailed
    else if SignedOn(c, o) || SecretOn(c) then
      if !SecretOn(c) || !SignedOn(c, o) || !RefererOn(c) then MissingHalf
      else if !o.verifies(c.secret.value, c.referer.value) then BadSignature
      else Verified
    else Open
  }

  /** The `io.on('connection', ...)` handler. */
  function Handle(c: Connection, o: Oracles): (r: Outcome)
    // the gauge is bumped once, before anything else
    ensures |r.effects| > 0 && r.effects[0] == GaugeInc
    ensures Count(r.effects, GaugeInc) == 1
    // and taken back at most once: not for a spawned process, nor when url.parse throws
    ensures Count(r.effects, GaugeDec) <= 1
    ensures Count(r.effects, GaugeDec) == 0 <==> r.verdict in {Spawned, Escaped}
    ensures r.verdict == Escaped <==> ParseThrows(c, o)
    ensures r.verdict == Rejected <==> !ParseThrows(c, o) && !GateAccepts(c, o)
  {
    var accepted: Trace := [GaugeInc];
    var verifying: Trace := [GaugeInc, VerifyCall];
    assert Count(accepted, GaugeInc) == 1 && Count(accepted, GaugeDec) == 0;
    assert Count(verifying, GaugeInc) == 1 && Count(verifying, GaugeDec) == 0;
    match Gate(c, o)
    case ParseFailed => Outcome(Escaped, accepted)
    case Open => RunCommand(c.launch, accepted)
    case Verified => RunCommand(c.launch, verifying)
    case MissingHalf => Reject(accepted)
    case BadSignature => Reject(verifying)
  }

  /**
    Past the gate, getCommand and spawn decide: the process is spawned exactly
    when both succeed, and spawn is reached unless getCommand threw.
   */
  lemma HandleFollowsLaunch(c: Connection, o: Oracles)
    ensures var r := Handle(c, o);
      && (r.verdict == Spawned <==> GateAccepts(c, o) && c.launch == Launched)
      && (r.verdict == SpawnFailed <==> GateAccepts(c, o) && c.launch != Launched)
      && (Spawn in r.effects <==> GateAccepts(c, o) && c.launch != CommandThrows)
  {
  }

  /**
    Only a rejection disconnects, only a passed gate reaches the command, and
    the verifier runs exactly when signing is asked for and all parts are there.
   */
  lemma HandlePaths(c: Connection, o: Oracles)
    ensures var r := Handle(c, o);
      && (Disconnect in r.effects <==> r.verdict == Rejected)
      && (GetCommand in r.effects <==> r.verdict in {SpawnFailed, Spawned})
      && (VerifyCall in r.effects <==> SecretOn(c) && SignedOn(c, o) && RefererOn(c))
      && (r.verdict == Escaped ==> r.effects == [GaugeInc])
  {
  }

  /**
    The exact trace of a connection the gate lets through: the increment, one
    verify call when signing is on, then the try-block.
   */
  lemma AcceptedTrace(c: Connection, o: Oracles)
    requires GateAccepts(c, o)
    ensures Handle(c, o).effects ==
      (if SecretOn(c) then [GaugeInc, VerifyCall] else [GaugeInc]) + CommandTail(c.launch)
  {
  }

  /** The signature is checked before getCommand or spawn can run. */
  lemma VerifyBeforeLaunch(c: Connection, o: Oracles)
    ensures var t := Handle(c, o).effects;
      forall i, j :: 0 <= i < j < |t| && t[j] == VerifyCall ==> t[i] !in {GetCommand, Spawn}
  {
  }

  /** Net effect of one connection on the gauge. */
  function Delta(c: Connection, o: Oracles): (d: int)
    ensures d == 0 || d == 1
    ensures d == 1 <==> Handle(c, o).verdict in {Spawned, Escaped}
  {
    var r := Handle(c, o);
    assert Count(r.effects, GaugeInc) == 1;
    Net(r.effects)
  }

  /** The handler rejects exactly the connections the fail-closed rule refuses. */
  lemma GateIsFailClosed(c: Connection, o: Oracles)
    ensures Handle(c, o).verdict == Rejected <==> !ParseThrows(c, o) && !GateAccepts(c, o)
  {
  }

  /** Neither a secret nor a `signed` parameter: the gate passes without verifying. */
  lemma OpenModeSkipsVerification(c: Connection, o: Oracles)
    requires !SecretOn(c) && !SignedOn(c, o)
    ensures VerifyCall !in Handle(c, o).effects
    ensures GetCommand in Handle(c, o).effects <==> !ParseThrows(c, o)
  {
  }

  /**
    A half-present pair, or a missing referer while the gate is active, is
    rejected before verification: disconnect, one decrement, no command
    (unless url.parse already threw).
   */
  lemma HalfPairRejected(c: Connection, o: Oracles)
    requires SecretOn(c) != SignedOn(c, o) || ((SecretOn(c) || SignedOn(c, o)) && !RefererOn(c))
    ensures var r := Handle(c, o);
      && (ParseThrows(c, o) ==> r == Outcome(Escaped, [GaugeInc]))
      && (!ParseThrows(c, o) ==> r == Outcome(Rejected, [GaugeInc, Disconnect, GaugeDec]))
  {
  }

  /** All three present but the signature fails: rejected after one verify call. */
  lemma BadSignatureRejected(c: Connection, o: Oracles)
    requires SecretOn(c) && SignedOn(c, o) && RefererOn(c)
    requires !o.verifies(c.secret.value, c.referer.value)
    ensures var r := Handle(c, o);
      && r.verdict == Rejected
      && r.effects == [GaugeInc, VerifyCall, Disconnect, GaugeDec]
  {
  }

  /** A missing referer carries no `signed` parameter, so without a secret it proceeds. */
  lemma MissingRefererOpenMode(c: Connection, o: Oracles)
    requires !RefererOn(c) && !SecretOn(c)
    ensures Handle(c, o).verdict != Rejected
    ensures GetCommand in Handle(c, o).effects
  {
  }

  /**
    The `!referer` test of the gate never decides on its own: a falsy referer
    has no `signed` parameter, so the pair test already rejects.
   */
  lemma RefererTestRedundant(c: Connection, o: Oracles)
    requires SecretOn(c) && SignedOn(c, o)
    ensures RefererOn(c)
  {
  }

  /** After the gate, a throwing getCommand or spawn gives one decrement and no disconnect. */
  lemma LaunchFailureDecrementsOnce(c: Connection, o: Oracles)
    requires GateAccepts(c, o) && c.launch != Launched
    ensures var r := Handle(c, o);
      && r.verdict == SpawnFailed
      && Count(r.effects, GaugeDec) == 1
      && Disconnect !in r.effects
      && Delta(c, o) == 0
  {
  }

  /** The handler's own share of the gauge never goes below zero. */
  lemma HandlerStaysNonNegative(c: Connection, o: Oracles)
    ensures StaysNonNegative(0, Handle(c, o).effects)
    ensures Apply(0, Handle(c, o).effects) == Delta(c, o)
  {
    var t := Handle(c, o).effects;
    ApplyIsNet(0, t);
    PrefixNonNegative(t);
  }

  /**
    A trace that starts with its only increment keeps a zero-based gauge
    non-negative.
   */
  lemma {:induction false} PrefixNonNegative(t: Trace)
    requires |t| > 0 && t[0] == GaugeInc
    requires Count(t, GaugeInc) == 1 && Count(t, GaugeDec) <= 1
    ensures StaysNonNegative(0, t)
  {
    assert Count(t[1..], GaugeInc) == 0;
    AtMostOneDec(1, t[1..]);
  }

  lemma {:induction false} AtMostOneDec(g: int, t: Trace)
    requires g >= 1 && Count(t, GaugeInc) == 0 && Count(t, GaugeDec) <= 1
    ensures StaysNonNegative(g, t)
    decreases |t|
  {
    if t != [] {
      if t[0] == GaugeDec {
        assert Count(t[1..], GaugeDec) == 0;
        NoDecStays(g - 1, t[1..]);
      } else {
        AtMostOneDec(g, t[1..]);
      }
    }
  }

  lemma {:induction false} NoDecStays(g: int, t: Trace)
    requires g >= 0 && Count(t, GaugeDec) == 0
    ensures StaysNonNegative(g, t)
    decreases |t|
  {
    if t != [] {
      assert Step(t[0]) >= 0;
      NoDecStays(g + Step(t[0]), t[1..]);
    }
  }

  /**
    Connections handled concurrently. Each has its own oracles, so a verdict
    that depends on the moment of the call (a token expiry, say) is covered.
   */
  function Traces(cs: seq<Connection>, os: seq<Oracles>): (ts: seq<Trace>)
    requires |os| == |cs|
    ensures |ts| == |cs|
    ensures forall i :: 0 <= i < |cs| ==> ts[i] == Handle(cs[i], os[i]).effects
    decreases |cs|
  {
    if cs == [] then [] else [Handle(cs[0], os[0]).effects] + Traces(cs[1..], os[1..])
  }

  /** Number of connections whose increment the handler never takes back. */
  function HeldCount(cs: seq<Connection>, os: seq<Oracles>): (n: nat)
    requires |os| == |cs|
    ensures n <= |cs|
    decreases |cs|
  {
    if cs == [] then 0
    else
      var held := if Handle(cs[0], os[0]).verdict in {Spawned, Escaped} then 1 else 0;
      held + HeldCount(cs[1..], os[1..])
  }

  /**
    However the handlers of `cs` interleave on the shared gauge, it never
    reads negative and ends at the number of connections that spawned a
    process or whose referer made url.parse throw: every rejected or failed
    connection is taken back exactly once.
   */
  lemma ConcurrentConnectionsGauge(cs: seq<Connection>, os: seq<Oracles>, t: Trace)
    requires |os| == |cs|
    requires InterleavingOf(t, Traces(cs, os))
    ensures StaysNonNegative(0, t)
    ensures Apply(0, t) == HeldCount(cs, os)
  {
    var ts := Traces(cs, os);
    forall i | 0 <= i < |ts|
      ensures StaysNonNegative(0, ts[i])
    {
      HandlerStaysNonNegative(cs[i], os[i]);
    }
    SharedGaugeNonNegative(t, ts);
    NetSumIsHeldCount(cs, os);
  }

  lemma {:induction false} NetSumIsHeldCount(cs: seq<Connection>, os: seq<Oracles>)
    requires |os| == |cs|
    ensures NetSum(Traces(cs, os)) == HeldCount(cs, os)
    decreases |cs|
  {
    if cs != [] {
      var ts := Traces(cs, os);
      assert ts[1..] == Traces(cs[1..], os[1..]);
      assert Net(ts[0]) == Delta(cs[0], os[0]);
      NetSumIsHeldCount(cs[1..], os[1..]);
    }
  }
}

=== FILE: gauge.dfy ===
/**
  The `wetty_connections` gauge and the observable effects of one connection
  handler. A handler run is described by the ordered trace of effects it
  performs; the gauge only sees the increments and decrements in that trace.
  Because the handler is asynchronous, the traces of several connections
  interleave on the one shared gauge; the lemmas at the end show that the
  gauge never goes negative and ends at the sum of the per-connection nets,
  whatever the interleaving.
 */
module Gauge {

  /** One observable step of the connection handler. */
  datatype Effect =
    | GaugeInc     // wettyConnections.inc()
    | GaugeDec     // wettyConnections.dec()
    | VerifyCall   // signature.verify(referer) is invoked
    | Disconnect   // socket.disconnect()
    | GetCommand   // getCommand(...) is invoked
    | Spawn        // spawn(socket, args) is invoked

  type Trace = seq<Effect>

  /** How an effect moves the gauge. */
  function Step(e: Effect): int {
    match e
    case GaugeInc => 1
    case GaugeDec => -1
    case _ => 0
  }

  /** Number of occurrences of `e` in `t`. */
  function Count(t: Trace, e: Effect): (n: nat)
    ensures n <= |t|
    decreases |t|
  {
    if t == [] then 0
    else (if t[0] == e then 1 else 0) + Count(t[1..], e)
  }

  /** Net change of the gauge over a trace: increments minus decrements. */
  function Net(t: Trace): int {
    Count(t, GaugeInc) - Count(t, GaugeDec)
  }

  /** The gauge value after applying `t` to a gauge that reads `g`. */
  function Apply(g: int, t: Trace): int
    decreases |t|
  {
    if t == [] then g else Apply(g + Step(t[0]), t[1..])
  }

  /** Starting from `g`, the gauge reads a non-negative value at every point of `t`. */
  ghost predicate StaysNonNegative(g: int, t: Trace)
    decreases |t|
  {
    g >= 0 && (t == [] || StaysNonNegative(g + Step(t[0]), t[1..]))
  }

  lemma {:induction false} CountConcat(a: Trace, b: Trace, e: Effect)
    ensures Count(a + b, e) == Count(a, e) + Count(b, e)
    decreases |a|
  {
    if a == [] {
      assert a + b == b;
    } else {
      assert (a + b)[1..] == a[1..] + b;
      CountConcat(a[1..], b, e);
    }
  }

  /** Applying a trace moves the gauge by exactly its net count. */
  lemma {:induction false} ApplyIsNet(g: int, t: Trace)
    ensures Apply(g, t) == g + Net(t)
    decreases |t|
  {
    if t != [] {
      ApplyIsNet(g + Step(t[0]), t[1..]);
    }
  }

  /** `t` is an order-preserving merge of `a` and `b`. */
  ghost predicate Interleaves(t: Trace, a: Trace, b: Trace)
    decreases |t|
  {
    if t == [] then a == [] && b == []
    else
      || (a != [] && t[0] == a[0] && Interleaves(t[1..], a[1..], b))
      || (b != [] && t[0] == b[0] && Interleaves(t[1..], a, b[1..]))
  }

  /**
    Two handler runs sharing the gauge: if neither drives its own share of the
    gauge below zero, no interleaving of them does, and the final reading is
    the sum of the two.
   */
  lemma {:induction false} InterleavedStaysNonNegative(t: Trace, a: Trace, b: Trace, ga: int, gb: int)
    requires Interleaves(t, a, b)
    requires StaysNonNegative(ga, a) && StaysNonNegative(gb, b)
    ensures StaysNonNegative(ga + gb, t)
    ensures Apply(ga + gb, t) == Apply(ga, a) + Apply(gb, b)
    decreases |t|
  {
    if t == [] {
    } else if a != [] && t[0] == a[0] && Interleaves(t[1..], a[1..], b) {
      InterleavedStaysNonNegative(t[1..], a[1..], b, ga + Step(a[0]), gb);
      assert ga + Step(a[0]) + gb == ga + gb + Step(t[0]);
    } else {
      assert b != [] && t[0] == b[0] && Interleaves(t[1..], a, b[1..]);
      InterleavedStaysNonNegative(t[1..], a, b[1..], ga, gb + Step(b[0]));
      assert ga + (gb + Step(b[0])) == ga + gb + Step(t[0]);
    }
  }

  /** `t` is some interleaving of all the traces in `ts`. */
  ghost predicate InterleavingOf(t: Trace, ts: seq<Trace>)
    decreases |ts|
  {
    if ts == [] then t == []
    else exists u :: Interleaves(t, ts[0], u) && InterleavingOf(u, ts[1..])
  }

  /** Sum of the nets of a list of traces. */
  function NetSum(ts: seq<Trace>): int
    decreases |ts|
  {
    if ts == [] then 0 else Net(ts[0]) + NetSum(ts[1..])
  }

  /**
    Any number of connections sharing the gauge, started from zero: when each
    run keeps its own share non-negative, every interleaving keeps the gauge
    non-negative and ends at the sum of the individual nets.
   */
  lemma {:induction false} SharedGaugeNonNegative(t: Trace, ts: seq<Trace>)
    requires InterleavingOf(t, ts)
    requires forall i :: 0 <= i < |ts| ==> StaysNonNegative(0, ts[i])
    ensures StaysNonNegative(0, t)
    ensures Apply(0, t) == NetSum(ts)
    decreases |ts|
  {
    if ts == [] {
    } else {
      var u :| Interleaves(t, ts[0], u) && InterleavingOf(u, ts[1..]);
      assert forall i :: 0 <= i < |ts[1..]| ==> ts[1..][i] == ts[i + 1];
      SharedGaugeNonNegative(u, ts[1..]);
      InterleavedStaysNonNegative(t, ts[0], u, 0, 0);
      ApplyIsNet(0, ts[0]);
    }
  }
}

=== FILE: socket_path.dfy ===
/**
  The browser client's derivation of the socket.io endpoint path from the
  page's pathname. The pathname is a parameter here rather than read from
  `window.location`.

  Two regular-expression replacements are modelled exactly:
  - the non-global pattern "any number of slashes, then end of input"
    deletes the maximal run of trailing slashes;
  - the pattern "ssh, a slash, one or more non-slashes, end of input"
    deletes `ssh/` followed by a non-empty, slash-free tail, which can only
    start three characters before the last slash; `ssh` need not follow a
    slash.
 */
module SocketPath {

  predicate EndsWithSlash(s: string) {
    |s| > 0 && s[|s| - 1] == '/'
  }

  predicate AllSlashes(s: string) {
    forall i :: 0 <= i < |s| ==> s[i] == '/'
  }

  /** `trim`: delete every trailing `/`. */
  function Trim(s: string): (r: string)
    ensures r <= s
    ensures AllSlashes(s[|r|..])
    ensures !EndsWithSlash(r)
    decreases |s|
  {
    if EndsWithSlash(s) then Trim(s[..|s| - 1]) else s
  }

  /** Trim is the only way to split `s` into a slash-free-ending head and a slash tail. */
  lemma TrimUnique(s: string, t: string)
    requires t <= s && AllSlashes(s[|t|..]) && !EndsWithSlash(t)
    ensures Trim(s) == t
  {
  }

  lemma TrimIdempotent(s: string)
    ensures Trim(Trim(s)) == Trim(s)
  {
  }

  /** A string without a trailing slash is left alone. */
  lemma TrimKeepsUnslashed(s: string)
    requires !EndsWithSlash(s)
    ensures Trim(s) == s
  {
  }

  lemma TrimAllSlashes(s: string)
    requires AllSlashes(s)
    ensures Trim(s) == ""
  {
  }

  /** Index just past the last `/` of `s`, or 0 when `s` has none. */
  function SegmentStart(s: string): (j: nat)
    ensures j <= |s|
    ensures forall k :: j <= k < |s| ==> s[k] != '/'
    ensures j > 0 ==> s[j - 1] == '/'
    decreases |s|
  {
    if s == [] then 0
    else if s[|s| - 1] == '/' then |s|
    else SegmentStart(s[..|s| - 1])
  }

  /** The ssh-segment pattern matches `s` starting at index `i`. */
  predicate SshTailAt(s: string, i: int) {
    && 0 <= i && i + 4 < |s|
    && s[i..i + 4] == "ssh/"
    && forall k :: i + 4 <= k < |s| ==> s[k] != '/'
  }

  /** A match starts exactly four characters before the start of the last segment. */
  lemma SshTailAtLastSlash(s: string, i: int)
    requires SshTailAt(s, i)
    ensures i + 4 == SegmentStart(s)
  {
  }

  /** The match can only start at one place. */
  lemma SshTailUnique(s: string, i: int, j: int)
    requires SshTailAt(s, i) && SshTailAt(s, j)
    ensures i == j
  {
    SshTailAtLastSlash(s, i);
    SshTailAtLastSlash(s, j);
  }

  /** Replace the ssh-segment pattern, if it matches, by the empty string. */
  function StripSsh(s: string): (r: string)
    ensures forall i :: SshTailAt(s, i) ==> r == s[..i]
    ensures (forall i :: !SshTailAt(s, i)) ==> r == s
  {
    var j := SegmentStart(s);
    forall i | SshTailAt(s, i) ensures i == j - 4 {
      SshTailAtLastSlash(s, i);
    }
    if 4 <= j < |s| && s[j - 4..j] == "ssh/" then
      assert SshTailAt(s, j - 4);
      s[..j - 4]
    else
      s
  }

  /** The pattern phrased as a decomposition `p + "ssh/" + seg`. */
  lemma StripSshDecomposition(p: string, seg: string)
    requires seg != [] && '/' !in seg
    ensures StripSsh(p + "ssh/" + seg) == p
  {
    var s := p + "ssh/" + seg;
    assert s[|p|..|p| + 4] == "ssh/";
    forall k | |p| + 4 <= k < |s| ensures s[k] != '/' {
      assert s[k] == seg[k - |p| - 4];
    }
    assert SshTailAt(s, |p|);
    assert s[..|p|] == p;
  }

  /** The socket base: the trimmed pathname without a trailing `ssh/<segment>`. */
  function SocketBase(pathname: string): (b: string)
    ensures b <= pathname
  {
    StripSsh(Trim(pathname))
  }

  /** The socket.io path the client connects to. */
  function SocketIoPath(pathname: string): (r: string)
    ensures |r| >= 10 && r[|r| - 10..] == "/socket.io"
    ensures r[..|r| - 10] <= pathname
    ensures !EndsWithSlash(r[..|r| - 10])
  {
    var dir := Trim(SocketBase(pathname));
    assert (dir + "/socket.io")[..|dir|] == dir;
    dir + "/socket.io"
  }

  /** Base of a pathname of the form `p + "ssh/" + seg`, up to trailing slashes. */
  lemma SocketBaseOfSshPath(pathname: string, p: string, seg: string)
    requires Trim(pathname) == p + "ssh/" + seg
    requires seg != [] && '/' !in seg
    ensures SocketBase(pathname) == p
    ensures SocketIoPath(pathname) == Trim(p) + "/socket.io"
  {
    StripSshDecomposition(p, seg);
  }

  /** The base differs from the trimmed pathname exactly when an ssh segment ends it. */
  lemma SocketBaseStripsIff(pathname: string)
    ensures SocketBase(pathname) != Trim(pathname) <==>
      exists p, seg :: Trim(pathname) == p + "ssh/" + seg && seg != [] && '/' !in seg
  {
    var s := Trim(pathname);
    if SocketBase(pathname) != s {
      var i :| SshTailAt(s, i);
      var p, seg := s[..i], s[i + 4..];
      assert s == p + "ssh/" + seg;
      forall k | 0 <= k < |seg| ensures seg[k] != '/' {
        assert seg[k] == s[i + 4 + k];
      }
      assert Trim(pathname) == p + "ssh/" + seg && seg != [] && '/' !in seg;
    } else if exists p, seg :: s == p + "ssh/" + seg && seg != [] && '/' !in seg {
      var p, seg :| s == p + "ssh/" + seg && seg != [] && '/' !in seg;
      StripSshDecomposition(p, seg);
    }
  }

  /** Without a trailing `ssh/<segment>`, the base is the trimmed pathname. */
  lemma SocketBaseOfOtherPath(pathname: string)
    requires forall p, seg :: Trim(pathname) == p + "ssh/" + seg ==> seg == [] || '/' in seg
    ensures SocketBase(pathname) == Trim(pathname)
    ensures SocketIoPath(pathname) == Trim(pathname) + "/socket.io"
  {
    SocketBaseStripsIff(pathname);
    TrimIdempotent(pathname);
  }

  lemma ExampleWettyUser()
    ensures SocketIoPath("/wetty/ssh/bob") == "/wetty/socket.io"
  {
    SocketBaseOfSshPath("/wetty/ssh/bob", "/wetty/", "bob");
    assert Trim("/wetty/") == "/wetty" by {
      TrimUnique("/wetty/", "/wetty");
    }
  }

  lemma ExampleRoot()
    ensures SocketIoPath("/") == "/socket.io"
  {
  }

  /** `ssh` need not follow a slash. */
  lemma ExampleGluedSsh()
    ensures SocketBase("/xssh/u") == "/x"
  {
  }

  /** An empty segment is not stripped: `/a/ssh/` keeps its `ssh`. */
  lemma ExampleEmptySegment()
    ensures SocketIoPath("/a/ssh/") == "/a/ssh/socket.io"
  {
    TrimUnique("/a/ssh/", "/a/ssh");
    assert "/a/ssh"[2] == '/';
    assert SegmentStart("/a/ssh") == 3;
    assert StripSsh("/a/ssh") == "/a/ssh";
    assert SocketBase("/a/ssh/") == "/a/ssh";
    TrimKeepsUnslashed("/a/ssh");
  }
}
